=== FILE: README.md ===
# Pick list, dropdown menu and mouse area: a Dafny model of their input handling

This project models how three widgets of an iced-based GUI library react to
input:

- the **pick list**, a combo box that opens a dropdown on a press and closes it
  on the next press. It selects the next or previous enabled option on
  command+wheel and remembers the keyboard modifiers;
- the **dropdown menu** it opens. The menu maps a cursor position to a row,
  tracks the hovered row, publishes a selection and places itself above or
  below the field;
- the **mouse area**, a wrapper that lets its content see each event first.
  It then tracks enter/move/exit and turns presses, releases and wheel
  movements into configured messages.

Each event handler is a pure function from (state, event, cursor, bounds) to an
`Outcome`: the new state, the messages published in order, and whether the
event was captured. Messages are an arbitrary type `M`, and callbacks are
function-typed fields. The application's disabled-mask function appears as
the mask it returns. `mouse::Click::new`, which depends on the host's clock,
is a `Classifier` parameter.

Modules:

- `Core` holds geometry, cursor, events and `Outcome`.
- `Seqs` holds first-index search, distinctness and reversal.
- `Menu` models `overlay/menu.rs`.
- `Scroll` models the command+wheel search of the pick list.
- `PickList` models `pick_list.rs`.
- `MouseArea` models `mouse_area.rs`.

Behaviour of the code that a reader might not expect, which the model keeps:

- A selected value that is not among the options makes the wheel search
  return nothing. `find_next` exhausts the iterator looking for it, so the
  walk never starts, and there is no fallback to the first or last enabled
  option (src/widget/pick_list.rs:518-525; `Scroll.ScrollFromAbsentSelection`).
- A negative vertical offset in `option_index_at` gives row 0 of a non-empty
  list, because the float-to-index cast saturates at 0
  (src/widget/overlay/menu.rs:180; `Menu.OptionIndexAt`). The offsets
  `position_in` produces are never negative, so no handler reaches this.
- In one call of the mouse area's hover block, `on_enter`, `on_move` and
  `on_exit` exclude one another. On the frame the cursor enters, `on_enter`
  fires and `on_move` does not; `on_move` fires then only when `on_enter` is
  unset (src/widget/mouse_area.rs:404-421; `MouseArea.Hover`).
- The pick list gives its menu no hover callback and leaves the menu at the
  default line height instead of passing its own text line height
  (src/widget/pick_list.rs:793-808, src/widget/overlay/menu.rs:75).
- The pick list's absorb check keys on the hovered index, not on the row
  under the press (src/widget/pick_list.rs:468-477). Its own comment
  (src/widget/pick_list.rs:479-481) says a press reaching the close is one
  on no disabled item. The menu only ever moves the hovered index onto
  enabled rows, so the check fires only while the hovered index is still
  the one set on opening (`PickList.MovedHoverIsNeverAbsorbed`). If the host
  passes a press on a disabled row on to the pick list after the menu has
  captured it, and the cursor has moved the hovered index, the list closes
  rather than absorbing the press. How the host routes events is not part of
  this model.

## Model

| member | source | states |
|---|---|---|
| Seqs.IndexOf | src/widget/pick_list.rs:493-497 | `iter().position`: none exactly when the value is absent, otherwise an index holding the value with no earlier one |
| Menu.CastToIndex | src/widget/overlay/menu.rs:180 | the `as usize` of the row quotient: zero for a negative value, otherwise the whole number at or just below it |
| Menu.OptionIndexAt | src/widget/overlay/menu.rs:169-187 | for a non-negative offset: a row exactly when the offset is less than the intrinsic height `option_height * len`, and the offset lies in that row's band; a negative offset saturates to row 0 |
| Menu.DisabledAt | src/widget/overlay/menu.rs:190-196 | a row is disabled only if the mask exists and mentions it, and then the mask's entry decides |
| Menu.RowUnder | src/widget/overlay/menu.rs:430-438 | a row under the cursor exactly when the cursor is over the list and its offset is less than the list's intrinsic height; the row's band contains the offset |
| Menu.SelectedRow | src/widget/overlay/menu.rs:430-449 | only a left or finger press over an enabled row selects, and the row is the one under the cursor |
| Menu.OnLeftPress | src/widget/overlay/menu.rs:430-449 | captured exactly over a row; `on_selected` with that row's option exactly when the row is enabled; the hovered row never changes |
| Menu.OnCursorMoved | src/widget/overlay/menu.rs:450-477 | captured exactly over a row; the hovered index moves only onto the enabled row under the cursor; `on_option_hovered` fires exactly when it is set and the hovered index changed, with the new row's option |
| Menu.OnFingerPressed | src/widget/overlay/menu.rs:479-498 | captured exactly over a row; on an enabled row the row becomes hovered and `on_selected` is published; a disabled row changes nothing |
| Menu.OnEvent | src/widget/overlay/menu.rs:418-504 | at most one message; ignored events change nothing; a valid hovered index stays valid and only moves onto enabled rows; presses and cursor moves are captured exactly over a row; a cursor move or finger press over an enabled row makes it the hovered row; `on_option_hovered` fires on a move exactly when it is set and the hovered row changed; `on_selected` exactly for the selected row, and a press that selects no row publishes nothing; all other events ignored |
| Menu.MouseInteraction | src/widget/overlay/menu.rs:506-525 | the pointer hand exactly over an enabled row, otherwise the default shape |
| Menu.PointerMeansSelectable | src/widget/overlay/menu.rs:430-449 | the pointer hand shows exactly where a left press would publish a selection |
| Menu.FullHeightListCapturesEveryPress | src/widget/overlay/menu.rs:406-410 | with the list at its intrinsic height `option_height * len`, every press over the list lands on a row and is captured |
| Menu.HoverTwiceIsQuiet | src/widget/overlay/menu.rs:450-477 | a second identical cursor move publishes nothing and keeps the hovered row |
| Menu.OverlayLayout | src/widget/overlay/menu.rs:277-303 | the menu goes below exactly when the space below is strictly larger; the height limit is the larger space; below starts at the field's bottom, above ends at the field's top |
| Menu.PlacementFitsViewport | src/widget/overlay/menu.rs:277-303 | a menu no taller than the height limit stays inside the viewport vertically |
| Scroll.FindNext | src/widget/pick_list.rs:518-525 | the element right after the first occurrence, none when the value is absent or last |
| Scroll.Walk | src/widget/pick_list.rs:537-550 | the loop ends on an enabled option at or after the candidate, or on none |
| Scroll.FirstEnabled | src/widget/pick_list.rs:552-556 | some enabled option from the given index on exactly when the result is present |
| Scroll.LastEnabled | src/widget/pick_list.rs:576-581 | some enabled option before the given index exactly when the result is present |
| Scroll.WalkFrom | src/widget/pick_list.rs:537-550 | the search started after the selection yields an enabled option different from the selection |
| Scroll.ScrollNext | src/widget/pick_list.rs:535-585 | the result is an enabled option different from the selection, and no result for a zero movement |
| Scroll.WalkForward | src/widget/pick_list.rs:537-550 | on distinct options, the forward walk from index `j` finds the least enabled index `>= j`, or nothing if all are disabled |
| Scroll.WalkBackward | src/widget/pick_list.rs:560-574 | on distinct options, the reversed walk finds the greatest enabled index below the anchor, or nothing |
| Scroll.FirstEnabledIsLeast | src/widget/pick_list.rs:552-556 | the first search gives the least enabled index, nothing when all are disabled |
| Scroll.LastEnabledIsGreatest | src/widget/pick_list.rs:576-581 | the reversed search gives the greatest enabled index, nothing when all are disabled |
| Scroll.ScrollForwardFromSelection | src/widget/pick_list.rs:535-557 | wheel down from option `i` gives the least enabled index above `i`, with no wrap-around |
| Scroll.ScrollBackwardFromSelection | src/widget/pick_list.rs:558-582 | wheel up from option `i` gives the greatest enabled index below `i`, with no wrap-around |
| Scroll.ScrollWithoutSelection | src/widget/pick_list.rs:551-557 | without a selection, down gives the first enabled option and up the last |
| Scroll.ScrollFromAbsentSelection | src/widget/pick_list.rs:518-525 | a selection missing from the options gives no result |
| PickList.InitialStateIsClosed | src/widget/pick_list.rs:849-861 | a fresh widget shows no menu, is not styled as opened, has no command key for the wheel search, and opens on the first press over the field |
| PickList.Mask | src/widget/pick_list.rs:529-533 | the application's mask, or an all-enabled mask as long as the options |
| PickList.OnPress | src/widget/pick_list.rs:463-507 | ignored exactly when closed and not over the field; open: stays open exactly on an absorbed press, otherwise closes with `on_close`; closed and over: opens with `on_open`, the hovered index being the selection's first index |
| PickList.OnWheel | src/widget/pick_list.rs:508-595 | never changes state; captured exactly for a command+line scroll over the closed field; publishes `on_select` exactly when the search finds an option, and for the very option the search returns, which is enabled and not the selection |
| PickList.WheelDownSelectsNextEnabled | src/widget/pick_list.rs:508-595 | with the option at index `i` selected, command+wheel down publishes the option at the least enabled index after `i`, and nothing when every later option is disabled |
| PickList.WheelUpSelectsPreviousEnabled | src/widget/pick_list.rs:508-595 | with the option at index `i` selected, command+wheel up publishes the option at the greatest enabled index before `i`, and nothing when every earlier option is disabled |
| PickList.WheelDownSkipsDisabledOption | src/widget/pick_list.rs:535-557 | options A, B, C with B disabled and A selected: wheel down publishes C |
| PickList.OnEvent | src/widget/pick_list.rs:462-605 | at most one message; a press on the closed field opens it and is captured exactly over the field; a press while open is captured and closes the list unless absorbed; a wheel event never changes state, is captured exactly when handled, and then publishes `on_select` of the search result; only a press opens or closes; only opening moves the hovered index, to a valid one; a modifier change stores the modifiers, publishes nothing and is not captured, and nothing else touches them; everything else ignored |
| PickList.Overlay | src/widget/pick_list.rs:786-817 | a menu exactly while open, over the same options and mask, without a hover callback |
| PickList.MenuList | src/widget/pick_list.rs:793-808 | the menu gets the widget's options and no hover callback, and its disabled test agrees on every index with the mask the wheel search and the label read |
| PickList.OverlayOnEvent | src/widget/pick_list.rs:793-804 | closed: nothing; open: the hovered index becomes the one the menu leaves behind; the list closes exactly when the menu selects a row, publishing `on_select` of that row's option; while it stays open nothing is published, since the menu has no hover callback |
| PickList.MovedHoverIsNeverAbsorbed | src/widget/pick_list.rs:468-477 | after the menu moved the hovered index, the pick list's absorb check cannot fire |
| PickList.AbsorbedPressIsDisabledRow | src/widget/pick_list.rs:468-477 | the absorb check is the menu's disabled-row test applied to the hovered index |
| PickList.DrawStatus | src/widget/pick_list.rs:650-656 | opened exactly while open; hovered exactly when closed and the cursor is over the field |
| PickList.MouseInteraction | src/widget/pick_list.rs:608-624 | the pointer hand exactly over the field, otherwise the default |
| PickList.HoverStyleMatchesOpeningPress | src/widget/pick_list.rs:489-503 | on a closed field the hovered style and the pointer hand appear exactly where a press opens the list, and the field is then styled as opened |
| PickList.LabelAsWritten | src/widget/pick_list.rs:733-752 | the label colour as written; the panic case arises only from a found selection whose index is past the mask |
| PickList.LabelAsWrittenPanicsOnShortMask | src/widget/pick_list.rs:740-745 | a two-option list whose one-entry mask misses the selected second option reaches the panic |
| PickList.LabelColorOf | src/widget/pick_list.rs:733-752 | nothing without selection or placeholder; placeholder colour exactly without a selection; disabled colour exactly when the selection is found and its mask entry is set |
| PickList.LabelColorAgreesWithSource | src/widget/pick_list.rs:733-752 | the corrected colour equals the source's wherever the source does not panic, and the source cannot panic when the mask covers the options |
| MouseArea.GetUsesPointOnlyForClosure | src/widget/mouse_area.rs:61-67 | a direct press message ignores the position; a closure receives it |
| MouseArea.Hover | src/widget/mouse_area.rs:397-421 | nothing when cursor and bounds are unchanged; otherwise stores both and recomputes hovering; at most one message, with enter before move before exit, `on_move` getting the bounds-local position |
| MouseArea.HoverTwiceIsQuiet | src/widget/mouse_area.rs:397-403 | a second call with the same cursor and bounds publishes nothing and changes nothing |
| MouseArea.HoverKeepsConsistency | src/widget/mouse_area.rs:194-201 | the stored hover flag agrees with the stored cursor and bounds, from the default state on |
| MouseArea.BoundMessage | src/widget/mouse_area.rs:467-528 | left release and lifted finger are bound to `on_release`, right and middle press and release to their own messages, a wheel movement to `on_scroll` of its delta; every other event, left and finger presses included, to nothing |
| MouseArea.Press | src/widget/mouse_area.rs:428-465 | captured exactly with `on_press`, or `on_double_click` and a known cursor; `on_press` of the bounds-local position first, `on_double_click` last exactly on a double click; the click remembered exactly when `on_double_click` is set and the cursor known, otherwise the state unchanged |
| MouseArea.Dispatch | src/widget/mouse_area.rs:424-528 | ignored away from the area; a press is captured exactly with `on_press` or `on_double_click` and a known cursor, publishes `on_press` first and `on_double_click` exactly on a double click, and remembers the click exactly when `on_double_click` is set; other events publish exactly their bound message |
| MouseArea.Update | src/widget/mouse_area.rs:384-529 | hover message first, then the dispatch; at most three messages; cursor and bounds stored; away from the area ignored with at most the hover message |
| MouseArea.OnEvent | src/widget/mouse_area.rs:289-302 | a content capture leaves the area's state alone and adds nothing; otherwise the area's messages follow the content's |
| MouseArea.AreaInteraction | src/widget/mouse_area.rs:321-328 | the configured shape exactly when the content asks for none and the cursor is over the area, otherwise the content's |
| MouseArea.InteractionOverrideOnlyWhereEventsHandled | src/widget/mouse_area.rs:321-328 | a replaced shape appears only over the area; away from it the content's shape is shown and the area ignores the event with at most a hover message |
| MouseArea.DirectPressPublishesItsMessage | src/widget/mouse_area.rs:61-67 | with a fixed press message, a press anywhere over the area is captured and publishes that message right after any hover message |
| MouseArea.PressCapturedIffConfigured | src/widget/mouse_area.rs:428-465 | over the area a press is captured exactly when `on_press` or `on_double_click` is set |
| MouseArea.PressWithoutDoubleClickKeepsClick | src/widget/mouse_area.rs:442-460 | without `on_double_click` the remembered click never changes |

## Left out

- Drawing, styling, theming, handle icons and text paragraph caches: they
  affect only rendering. The label colour choice is kept.
- Layout sizing of the field, and resolving the menu list's height against
  its limits. These are host layout with text metrics. The menu height is a
  parameter of `Menu.OverlayLayout`, and the intrinsic height is
  `option_height * len`.
- The scrollable that wraps the menu list. Its scroll offset, which shifts
  the cursor, is host code and not part of this model.
- The host's event routing: tree diffing, state downcasts, overlay stacking,
  and the order in which overlay and base widget receive an event (the base
  gets an unavailable cursor when the overlay has it). Each widget's handler
  is modelled alone, and `MouseArea.OnEvent` takes the content's result as a
  parameter.
- `mouse::Click::new`: its time and distance rule is library code that is not
  part of this model, so it is the `Classifier` parameter.
- Floating point: coordinates are reals, with no NaN or infinity. The
  float-to-index cast saturates at 0 and otherwise truncates. Its upper
  saturation is not modelled.
- Scroll.ScrollNext: requires distinct options when there is a selection.
  With a duplicated value, `find_next` restarts at the first occurrence and
  can loop forever.
- Scroll.ScrollNext: requires a mask at least as long as the options. The
  search indexes the mask without a bounds check, so a shorter mask can panic
  once the search reaches an index the mask does not cover. A search that
  stops earlier, such as one with no selection whose first option is enabled
  or one whose selection is not among the options, does not panic; the model
  still asks for a covering mask rather than tracking which indices the
  search reaches.
- PickList.OnWheel: requires, for a handled wheel movement, the same distinct
  options and covering mask as `Scroll.ScrollNext`, for the same reasons.
- PickList.OnEvent: requires the same of a wheel event, since it passes the
  event to `PickList.OnWheel`.
- Menu.OverlayLayout: gives the width limit before the source narrows it to
  the menu's configured width (src/widget/overlay/menu.rs:293); that width is
  host layout input and not part of this model.
- The visible-row slice in the menu's `draw`: its start is not clamped, and it
  is drawing code.
- Builder setters (`width`, `padding`, `on_open`, ...) are plain field writes.
  The model's configuration datatypes are their result.
- The keyboard and window events that none of the three handlers reacts to
  are folded into one `OtherEvent`.

## Findings

| source | as written | input that shows it | evidently intended | confidence | as-written member | corrected member |
|---|---|---|---|---|---|---|
| src/widget/pick_list.rs:745 | the label colour indexes the disabled mask at the selection's index without a bounds check | options `[1, 2]`, mask `[false]`, selection `2`: index 1 is past the one-entry mask and the draw panics | an index the mask does not mention counts as enabled, as at src/widget/pick_list.rs:473 and src/widget/overlay/menu.rs:190-196 | not executed | PickList.LabelAsWrittenPanicsOnShortMask | PickList.LabelColorAgreesWithSource |

=== FILE: core.dfy ===
/**
 Vocabulary shared by the three widgets: optional values, the capture flag an
 event handler returns, screen geometry, the mouse cursor, the input events the
 handlers react to, and the outcome of one handler call.
 */
module Core {

  datatype Option<+T> = None | Some(value: T) {

    /** The zero- or one-element sequence holding the value: what publishing an
        optional message amounts to. */
    function ToSeq(): (r: seq<T>)
      ensures |r| <= 1
      ensures |r| == 1 <==> Some?
      ensures Some? ==> r[0] == value
    {
      match this
      case Some(v) => [v]
      case None => []
    }
  }

  /** Whether an event handler consumed the event (`event::Status`). */
  datatype EventStatus = Ignored | Captured

  datatype Point = Point(x: real, y: real)

  datatype Size = Size(width: real, height: real)

  datatype Rectangle = Rectangle(x: real, y: real, width: real, height: real)

  /** The host's `Rectangle::contains`: closed on the top-left edges, open on
      the bottom-right ones. */
  predicate Contains(r: Rectangle, p: Point) {
    r.x <= p.x < r.x + r.width && r.y <= p.y < r.y + r.height
  }

  /** `mouse::Cursor`: a known position or no position at all. */
  datatype Cursor = Available(position: Point) | Unavailable

  /** `Cursor::position`. */
  function CursorPosition(c: Cursor): Option<Point> {
    match c
    case Available(p) => Some(p)
    case Unavailable => None
  }

  /** `Cursor::is_over`. */
  predicate IsOver(c: Cursor, bounds: Rectangle) {
    c.Available? && Contains(bounds, c.position)
  }

  /** `Cursor::position_in`: the cursor position relative to the top-left
      corner of `bounds`, defined only while the cursor is over `bounds`. */
  function PositionIn(c: Cursor, bounds: Rectangle): (r: Option<Point>)
    ensures r.Some? <==> IsOver(c, bounds)
    ensures r.Some? ==> 0.0 <= r.value.x < bounds.width && 0.0 <= r.value.y < bounds.height
    ensures r.Some? ==> c.position == Point(bounds.x + r.value.x, bounds.y + r.value.y)
  {
    if IsOver(c, bounds) then Some(Point(c.position.x - bounds.x, c.position.y - bounds.y))
    else None
  }

  datatype Button = Left | Right | Middle | Back | Forward | OtherButton(code: nat)

  /** `mouse::ScrollDelta`: a wheel movement counted in lines or in pixels. */
  datatype ScrollDelta = Lines(x: real, y: real) | Pixels(x: real, y: real)

  /** The keyboard modifiers; `command` is the platform's command key (the
      logo key on macOS, control elsewhere), which is all the widgets read. */
  datatype Modifiers = Modifiers(command: bool, shift: bool, alt: bool)

  const NoModifiers := Modifiers(false, false, false)

  /** The input events the widgets distinguish. Keyboard key, window and input
      method events are folded into `OtherEvent`: no handler here reacts to them. */
  datatype Event =
    | ButtonPressed(button: Button)
    | ButtonReleased(button: Button)
    | CursorMoved(position: Point)
    | CursorEntered
    | CursorLeft
    | WheelScrolled(delta: ScrollDelta)
    | FingerPressed(finger: nat, position: Point)
    | FingerMoved(finger: nat, position: Point)
    | FingerLifted(finger: nat, position: Point)
    | FingerLost(finger: nat, position: Point)
    | ModifiersChanged(modifiers: Modifiers)
    | OtherEvent

  /** A left-button press or a finger press: the press all three widgets
      treat alike. */
  predicate IsPress(event: Event) {
    event == ButtonPressed(Left) || event.FingerPressed?
  }

  /** `mouse::Interaction`: the pointer shape a widget asks for.
      `NoInteraction` is the host's `Interaction::None`, also its default. */
  datatype Interaction =
    | NoInteraction | Idle | Pointer | Grab | Text | Crosshair | Working | Grabbing
    | ResizingHorizontally | ResizingVertically | NotAllowed | ZoomIn | ZoomOut

  const DefaultInteraction := NoInteraction

  /** What one call of an event handler produces: the widget state after the
      call, the messages published to the shell in order, and the capture flag. */
  datatype Outcome<S, M> = Outcome(state: S, messages: seq<M>, status: EventStatus)
}

=== FILE: menu.dfy ===
/**
 The dropdown list shown while a pick list is open (`overlay::menu`): the
 vertically stacked option rows, their hit test, the disabled mask, the event
 handler that selects and hovers rows, the pointer feedback, and the rule that
 puts the menu below or above the widget it drops from.
 */
module Menu {
  import opened Core

  datatype Padding = Padding(top: real, right: real, bottom: real, left: real)

  /** The list inside the menu. `lineHeight` is the absolute text line height
      the renderer resolves from the text size; `hovered` state lives with the
      owner of the menu and is passed to the handler. */
  datatype List<!T, M> = List(
    options: seq<T>,
    disabled: Option<seq<bool>>,
    onSelected: T -> M,
    onOptionHovered: Option<T -> M>,
    lineHeight: real,
    padding: Padding)

  /** The height of one row: the text line plus the vertical padding. */
  function OptionHeight<T, M>(l: List<T, M>): real {
    l.lineHeight + l.padding.top + l.padding.bottom
  }

  /** Rows have a positive height, which the row arithmetic divides by. */
  predicate WellFormed<T, M>(l: List<T, M>) {
    OptionHeight(l) > 0.0
  }

  /** The height the list asks its layout for: one row per option. */
  function IntrinsicHeight<T, M>(l: List<T, M>): real {
    OptionHeight(l) * |l.options| as real
  }

  /** Row `k` covers the band `[k * h, (k + 1) * h)` of list-local heights. */
  predicate InRow<T, M>(l: List<T, M>, k: nat, y: real) {
    k as real * OptionHeight(l) <= y < (k + 1) as real * OptionHeight(l)
  }

  /** `f32 as usize` on a finite value: negative values saturate to zero,
      the others are truncated, which for them is the floor. */
  function CastToIndex(v: real): (r: nat)
    ensures v >= 0.0 ==> r as real <= v < r as real + 1.0
    ensures v < 0.0 ==> r == 0
  {
    if v < 0.0 then 0 else v.Floor
  }

  lemma MulLeft(a: real, b: real, h: real)
    requires h > 0.0 && a <= b
    ensures a * h <= b * h
  {
  }

  /** Scaling a quotient back: bounds on `y / h` are bounds on `y` in units of `h`. */
  lemma ScaleBounds(y: real, h: real, lo: real, hi: real)
    requires h > 0.0 && lo <= y / h < hi
    ensures lo * h <= y < hi * h
  {
  }

  /** The row index the cast computes for a non-negative height is the row
      whose band holds that height, and it is below `n` exactly when the
      height is below `n` rows. */
  lemma RowOfHeight(y: real, h: real, n: nat)
    requires h > 0.0 && y >= 0.0
    ensures var k := CastToIndex(y / h);
            k as real * h <= y < (k + 1) as real * h && (k < n <==> y < h * n as real)
  {
    var k := CastToIndex(y / h);
    ScaleBounds(y, h, k as real, (k + 1) as real);
    if k < n {
      MulLeft((k + 1) as real, n as real, h);
    } else {
      MulLeft(n as real, k as real, h);
    }
    assert h * n as real == n as real * h;
  }

  /** `List::option_index_at`: the row under list-local point `p`. For points
      at or below the top edge it is the row whose band holds `p.y`, when
      there is one; above the top edge the saturating cast yields row 0. */
  function OptionIndexAt<T, M>(l: List<T, M>, p: Point): (r: Option<nat>)
    requires WellFormed(l)
    ensures r.Some? ==> r.value < |l.options|
    ensures p.y >= 0.0 ==> (r.Some? <==> p.y < IntrinsicHeight(l))
    ensures p.y >= 0.0 && r.Some? ==> InRow(l, r.value, p.y)
    ensures p.y < 0.0 ==> r == (if |l.options| > 0 then Some(0) else None)
  {
    var k := CastToIndex(p.y / OptionHeight(l));
    if p.y >= 0.0 then
      RowOfHeight(p.y, OptionHeight(l), |l.options|);
      if k < |l.options| then Some(k) else None
    else
      if k < |l.options| then Some(k) else None
  }

  /** The bounds-safe mask lookup: a missing mask, or a mask too short to
      mention row `i`, leaves the row enabled. */
  function DisabledAt(disabled: Option<seq<bool>>, i: nat): (r: bool)
    ensures r ==> disabled.Some? && i < |disabled.value|
    ensures disabled.Some? && i < |disabled.value| ==> r == disabled.value[i]
  {
    match disabled
    case None => false
    case Some(d) => if i < |d| then d[i] else false
  }

  /** `List::is_disabled`. */
  function IsDisabled<T, M>(l: List<T, M>, i: nat): bool {
    DisabledAt(l.disabled, i)
  }

  /** The row under the cursor: `position_in` followed by `option_index_at`. */
  function RowUnder<T, M>(l: List<T, M>, cursor: Cursor, bounds: Rectangle): (r: Option<nat>)
    requires WellFormed(l)
    ensures r.Some? ==> r.value < |l.options|
    ensures r.Some? <==> IsOver(cursor, bounds) && PositionIn(cursor, bounds).value.y < IntrinsicHeight(l)
    ensures r.Some? ==> InRow(l, r.value, PositionIn(cursor, bounds).value.y)
  {
    match PositionIn(cursor, bounds)
    case None => None
    case Some(p) => OptionIndexAt(l, p)
  }

  /** The row whose option `on_selected` is called for: a left press or a
      finger press on an enabled row. */
  function SelectedRow<T, M>(l: List<T, M>, event: Event, cursor: Cursor, bounds: Rectangle): (r: Option<nat>)
    requires WellFormed(l)
    ensures r.Some? ==> r == RowUnder(l, cursor, bounds) && !IsDisabled(l, r.value)
    ensures r.Some? ==> IsPress(event)
    ensures && IsPress(event)
            && RowUnder(l, cursor, bounds).Some?
            && !IsDisabled(l, RowUnder(l, cursor, bounds).value)
            ==> r.Some?
  {
    if IsPress(event) then
      match RowUnder(l, cursor, bounds)
      case Some(k) => if IsDisabled(l, k) then None else Some(k)
      case None => None
    else None
  }

  /** The hovered index, when present, names an option. */
  predicate HoverValid(hovered: Option<nat>, n: nat) {
    hovered.Some? ==> hovered.value < n
  }

  /** A left press over a row: an enabled row publishes its option through
      `on_selected`, a disabled one publishes nothing; either way the press
      is captured. A press below the last row or outside the list is left
      alone. The hovered row never changes. */
  function OnLeftPress<T, M>(l: List<T, M>, hovered: Option<nat>, cursor: Cursor, bounds: Rectangle)
    : (r: Outcome<Option<nat>, M>)
    requires WellFormed(l)
    ensures r.state == hovered
    ensures r.status == Captured <==> IsOver(cursor, bounds) && PositionIn(cursor, bounds).value.y < IntrinsicHeight(l)
    ensures r.status == Ignored ==> r.messages == []
    ensures |r.messages| <= 1
    ensures |r.messages| == 1 <==> SelectedRow(l, ButtonPressed(Left), cursor, bounds).Some?
    ensures |r.messages| == 1 ==>
              r.messages[0] == l.onSelected(l.options[SelectedRow(l, ButtonPressed(Left), cursor, bounds).value])
  {
    match RowUnder(l, cursor, bounds)
    case None => Outcome(hovered, [], Ignored)
    case Some(k) =>
      Outcome(hovered, if IsDisabled(l, k) then [] else [l.onSelected(l.options[k])], Captured)
  }

  /** Cursor movement over a row: an enabled row becomes the hovered one and,
      when an `on_option_hovered` callback is set, a message is published
      exactly when the hovered row changes; a disabled row changes nothing.
      Movement over a row is captured, anywhere else ignored. */
  function OnCursorMoved<T, M>(l: List<T, M>, hovered: Option<nat>, cursor: Cursor, bounds: Rectangle)
    : (r: Outcome<Option<nat>, M>)
    requires WellFormed(l)
    ensures r.status == Captured <==> RowUnder(l, cursor, bounds).Some?
    ensures r.status == Captured && !IsDisabled(l, RowUnder(l, cursor, bounds).value) ==>
              r.state == RowUnder(l, cursor, bounds)
    ensures r.state != hovered ==>
              r.state.Some? && r.state == RowUnder(l, cursor, bounds) && !IsDisabled(l, r.state.value)
    ensures |r.messages| <= 1
    ensures |r.messages| == 1 <==> l.onOptionHovered.Some? && r.state != hovered
    ensures |r.messages| == 1 ==>
              r.state.Some? && r.messages[0] == l.onOptionHovered.value(l.options[r.state.value])
  {
    match RowUnder(l, cursor, bounds)
    case None => Outcome(hovered, [], Ignored)
    case Some(k) =>
      if IsDisabled(l, k) then Outcome(hovered, [], Captured)
      else
        var messages :=
          match l.onOptionHovered
          case Some(f) => if hovered != Some(k) then [f(l.options[k])] else []
          case None => [];
        Outcome(Some(k), messages, Captured)
  }

  /** A finger press over a row: an enabled row becomes the hovered one and
      its option is published through `on_selected`; a disabled row changes
      nothing. A press over a row is captured, anywhere else ignored. */
  function OnFingerPressed<T, M>(l: List<T, M>, hovered: Option<nat>, cursor: Cursor, bounds: Rectangle)
    : (r: Outcome<Option<nat>, M>)
    requires WellFormed(l)
    ensures r.status == Captured <==> RowUnder(l, cursor, bounds).Some?
    ensures r.status == Ignored ==> r.state == hovered && r.messages == []
    ensures |r.messages| <= 1
    ensures |r.messages| == 1 <==> RowUnder(l, cursor, bounds).Some? && !IsDisabled(l, RowUnder(l, cursor, bounds).value)
    ensures |r.messages| == 1 ==> r.state == RowUnder(l, cursor, bounds) && r.messages[0] == l.onSelected(l.options[r.state.value])
    ensures |r.messages| == 0 ==> r.state == hovered
  {
    match RowUnder(l, cursor, bounds)
    case None => Outcome(hovered, [], Ignored)
    case Some(k) =>
      if IsDisabled(l, k) then Outcome(hovered, [], Captured)
      else Outcome(Some(k), [l.onSelected(l.options[k])], Captured)
  }

  /** `List::on_event`: left press, cursor movement and finger press are
      handled as above; every other event is ignored. At most one message is
      published, `on_selected` is called exactly for the selected row, a
      press that selects no row publishes nothing, a move or finger press
      over an enabled row makes it the hovered one, and a valid hovered index
      stays valid. */
  function OnEvent<T, M>(l: List<T, M>, hovered: Option<nat>, event: Event, cursor: Cursor, bounds: Rectangle)
    : (r: Outcome<Option<nat>, M>)
    requires WellFormed(l)
    ensures |r.messages| <= 1
    ensures r.status == Ignored ==> r.state == hovered && r.messages == []
    ensures HoverValid(hovered, |l.options|) ==> HoverValid(r.state, |l.options|)
    ensures r.state != hovered ==>
              r.state.Some? && r.state == RowUnder(l, cursor, bounds) && !IsDisabled(l, r.state.value)
    ensures SelectedRow(l, event, cursor, bounds).Some? ==>
              r.messages == [l.onSelected(l.options[SelectedRow(l, event, cursor, bounds).value])]
    ensures SelectedRow(l, event, cursor, bounds).None? && !event.CursorMoved? ==> r.messages == []
    ensures IsPress(event) || event.CursorMoved? ==> (r.status == Captured <==> RowUnder(l, cursor, bounds).Some?)
    ensures && (event.CursorMoved? || event.FingerPressed?)
            && RowUnder(l, cursor, bounds).Some?
            && !IsDisabled(l, RowUnder(l, cursor, bounds).value)
            ==> r.state == RowUnder(l, cursor, bounds)
    ensures event.CursorMoved? ==>
              && (|r.messages| == 1 <==> l.onOptionHovered.Some? && r.state != hovered)
              && (|r.messages| == 1 ==> r.state.Some? && r.messages[0] == l.onOptionHovered.value(l.options[r.state.value]))
    ensures !(IsPress(event) || event.CursorMoved?) ==>
              r == Outcome(hovered, [], Ignored)
  {
    match event
    case ButtonPressed(Left) => OnLeftPress(l, hovered, cursor, bounds)
    case CursorMoved(_) => OnCursorMoved(l, hovered, cursor, bounds)
    case FingerPressed(_, _) => OnFingerPressed(l, hovered, cursor, bounds)
    case _ => Outcome(hovered, [], Ignored)
  }

  /** `List::mouse_interaction`: the pointer hand over an enabled row, the
      default shape anywhere else. */
  function MouseInteraction<T, M>(l: List<T, M>, cursor: Cursor, bounds: Rectangle): (r: Interaction)
    requires WellFormed(l)
    ensures r == Pointer || r == DefaultInteraction
    ensures r == Pointer <==>
              RowUnder(l, cursor, bounds).Some? && !IsDisabled(l, RowUnder(l, cursor, bounds).value)
  {
    match RowUnder(l, cursor, bounds)
    case Some(k) => if !IsDisabled(l, k) then Pointer else DefaultInteraction
    case None => DefaultInteraction
  }

  /** The pointer hand is shown exactly where a click would select an option. */
  lemma PointerMeansSelectable<T, M>(l: List<T, M>, hovered: Option<nat>, cursor: Cursor, bounds: Rectangle)
    requires WellFormed(l)
    ensures MouseInteraction(l, cursor, bounds) == Pointer <==>
              |OnEvent(l, hovered, ButtonPressed(Left), cursor, bounds).messages| == 1
  {
  }

  /** When the list is laid out at its intrinsic height, every row band is
      inside the list and every press over the list lands on a row. */
  lemma FullHeightListCapturesEveryPress<T, M>(l: List<T, M>, hovered: Option<nat>, cursor: Cursor, bounds: Rectangle)
    requires WellFormed(l)
    requires bounds.height == IntrinsicHeight(l)
    requires IsOver(cursor, bounds)
    ensures OnEvent(l, hovered, ButtonPressed(Left), cursor, bounds).status == Captured
    ensures RowUnder(l, cursor, bounds).Some?
  {
  }

  /** Hovering is idempotent: moving again without leaving the row publishes
      nothing and keeps the hovered row. */
  lemma HoverTwiceIsQuiet<T, M>(l: List<T, M>, hovered: Option<nat>, cursor: Cursor, bounds: Rectangle, p: Point)
    requires WellFormed(l)
    ensures var first := OnEvent(l, hovered, CursorMoved(p), cursor, bounds);
            var second := OnEvent(l, first.state, CursorMoved(p), cursor, bounds);
            second.messages == [] && second.state == first.state
  {
  }

  datatype Side = Below | Above

  /** Where the overlay goes: the maximum size of the limits the list is laid
      out in, before the source narrows their width to the menu's own width,
      and the top-left corner the laid-out menu is moved to. */
  datatype Placement = Placement(maxWidth: real, maxHeight: real, side: Side, origin: Point)

  function SpaceBelow(viewport: Size, position: Point, targetHeight: real): real {
    viewport.height - (position.y + targetHeight)
  }

  function SpaceAbove(position: Point): real {
    position.y
  }

  /** `Overlay::layout`: the menu hangs below the widget when strictly more
      room is left below it than above, and otherwise sits on top of it; its
      height is limited by the larger of the two spaces. `menuHeight` is the
      height the scrollable list resolves within that limit. */
  function OverlayLayout(viewport: Size, position: Point, targetHeight: real, menuHeight: real): (r: Placement)
    ensures r.side == Below <==> SpaceBelow(viewport, position, targetHeight) > SpaceAbove(position)
    ensures r.maxHeight >= SpaceBelow(viewport, position, targetHeight) && r.maxHeight >= SpaceAbove(position)
    ensures r.maxHeight == SpaceBelow(viewport, position, targetHeight) || r.maxHeight == SpaceAbove(position)
    ensures r.maxWidth == viewport.width - position.x
    ensures r.origin.x == position.x
    ensures r.side == Below ==> r.origin.y == position.y + targetHeight
    ensures r.side == Above ==> r.origin.y + menuHeight == position.y
  {
    var below := SpaceBelow(viewport, position, targetHeight);
    var above := SpaceAbove(position);
    var maxHeight := if below > above then below else above;
    if below > above then
      Placement(viewport.width - position.x, maxHeight, Below, Point(position.x, position.y + targetHeight))
    else
      Placement(viewport.width - position.x, maxHeight, Above, Point(position.x, position.y - menuHeight))
  }

  /** A menu whose height respects the limit stays inside the viewport on
      the side it is placed, and touches the widget without covering it. */
  lemma PlacementFitsViewport(viewport: Size, position: Point, targetHeight: real, menuHeight: real)
    requires 0.0 <= menuHeight
    requires menuHeight <= OverlayLayout(viewport, position, targetHeight, menuHeight).maxHeight
    ensures var r := OverlayLayout(viewport, position, targetHeight, menuHeight);
            (r.side == Below ==> r.origin.y + menuHeight <= viewport.height && r.origin.y >= position.y + targetHeight)
            && (r.side == Above ==> r.origin.y >= 0.0 && r.origin.y + menuHeight <= position.y)
  {
  }
}

=== FILE: mouse_area.dfy ===
/**
 The mouse area: a wrapper that lets its content handle an event first and,
 when the content does not capture it, tracks hover transitions and turns
 presses, releases and wheel movements over its bounds into the messages it
 was configured with.
 */
module MouseArea {
  import opened Core

  /** The left-press message: a fixed message, or one built from the press
      position relative to the area. */
  datatype OnPress<M> = Direct(message: M) | Closure(f: Point -> M) {
    function Get(point: Point): M {
      match this
      case Direct(m) => m
      case Closure(f) => f(point)
    }
  }

  /** A fixed press message does not depend on where the press happened; a
      closure sees the bounds-local position. */
  lemma GetUsesPointOnlyForClosure<M>(o: OnPress<M>, p: Point, q: Point)
    ensures o.Direct? ==> o.Get(p) == o.Get(q) == o.message
    ensures o.Closure? ==> o.Get(p) == o.f(p)
  {
  }

  datatype ClickKind = Single | Double | Triple

  /** `mouse::Click`: where, with which button, what kind of click, and the
      instant it happened (an opaque tick count). */
  datatype Click = Click(position: Point, button: Button, kind: ClickKind, time: nat)

  /** `mouse::Click::new`: classifies a press against the previous click using
      the host's clock and distance rule, neither of which is part of this
      model; the handlers receive it as a parameter. */
  type Classifier = (Point, Button, Option<Click>) -> Click

  /** The area's own state: whether the cursor was over it, and the bounds and
      cursor position it last saw. */
  datatype State = State(isHovered: bool, bounds: Rectangle, cursorPosition: Option<Point>, previousClick: Option<Click>)

  const DefaultState := State(false, Rectangle(0.0, 0.0, 0.0, 0.0), None, None)

  /** The area's configuration; every callback is optional. */
  datatype Area<M> = Area(
    onPress: Option<OnPress<M>>,
    onRelease: Option<M>,
    onDoubleClick: Option<M>,
    onRightPress: Option<M>,
    onRightRelease: Option<M>,
    onMiddlePress: Option<M>,
    onMiddleRelease: Option<M>,
    onScroll: Option<ScrollDelta -> M>,
    onEnter: Option<M>,
    onMove: Option<Point -> M>,
    onExit: Option<M>,
    interaction: Option<Interaction>)

  /** The cursor a stored position stands for. */
  function CursorAt(position: Option<Point>): (r: Cursor)
    ensures CursorPosition(r) == position
  {
    match position
    case Some(p) => Available(p)
    case None => Unavailable
  }

  /** The stored hover flag agrees with the stored cursor and bounds. */
  predicate HoverConsistent(s: State) {
    s.isHovered == IsOver(CursorAt(s.cursorPosition), s.bounds)
  }

  /** Whether the hover block runs: the cursor position or the bounds differ
      from the stored ones. */
  predicate Changed(s: State, cursor: Cursor, bounds: Rectangle) {
    s.cursorPosition != CursorPosition(cursor) || s.bounds != bounds
  }

  datatype HoverStep<M> = HoverStep(state: State, message: Option<M>)

  /** The hover block of `update`. When nothing changed it does nothing.
      Otherwise it stores the cursor position and bounds, recomputes the hover
      flag, and publishes at most one message: `on_enter` on entering; failing
      that, `on_move` with the bounds-local position while over the area
      (entering without `on_enter` included); failing that, `on_exit` on
      leaving. */
  function Hover<M>(a: Area<M>, s: State, cursor: Cursor, bounds: Rectangle): (r: HoverStep<M>)
    ensures !Changed(s, cursor, bounds) ==> r == HoverStep(s, None)
    ensures Changed(s, cursor, bounds) ==>
              r.state == State(IsOver(cursor, bounds), bounds, CursorPosition(cursor), s.previousClick)
    ensures r.message.Some? <==>
              && Changed(s, cursor, bounds)
              && ( (IsOver(cursor, bounds) && !s.isHovered && (a.onEnter.Some? || a.onMove.Some?))
                || (IsOver(cursor, bounds) && s.isHovered && a.onMove.Some?)
                || (!IsOver(cursor, bounds) && s.isHovered && a.onExit.Some?))
    ensures Changed(s, cursor, bounds) && IsOver(cursor, bounds) && !s.isHovered && a.onEnter.Some? ==>
              r.message == a.onEnter
    ensures Changed(s, cursor, bounds) && IsOver(cursor, bounds) && (s.isHovered || a.onEnter.None?) && a.onMove.Some? ==>
              r.message == Some(a.onMove.value(PositionIn(cursor, bounds).value))
    ensures Changed(s, cursor, bounds) && !IsOver(cursor, bounds) && s.isHovered && a.onExit.Some? ==>
              r.message == a.onExit
  {
    if Changed(s, cursor, bounds) then
      var wasHovered := s.isHovered;
      var isHovered := IsOver(cursor, bounds);
      var s' := s.(isHovered := isHovered, cursorPosition := CursorPosition(cursor), bounds := bounds);
      var message :=
        if a.onEnter.Some? && isHovered && !wasHovered then a.onEnter
        else if a.onMove.Some? && isHovered then
          (match PositionIn(cursor, bounds)
           case Some(p) => Some(a.onMove.value(p))
           case None => None)
        else if a.onExit.Some? && !isHovered && wasHovered then a.onExit
        else None;
      HoverStep(s', message)
    else
      HoverStep(s, None)
  }

  /** Running the hover block twice with the same cursor and bounds publishes
      nothing the second time and changes nothing. */
  lemma HoverTwiceIsQuiet<M>(a: Area<M>, s: State, cursor: Cursor, bounds: Rectangle)
    ensures var h := Hover(a, s, cursor, bounds);
            Hover(a, h.state, cursor, bounds) == HoverStep(h.state, None)
  {
  }

  /** After the hover block the stored flag agrees with the stored cursor and
      bounds, provided it did before; the default state starts out consistent. */
  lemma HoverKeepsConsistency<M>(a: Area<M>, s: State, cursor: Cursor, bounds: Rectangle)
    requires HoverConsistent(s)
    ensures HoverConsistent(Hover(a, s, cursor, bounds).state)
    ensures Hover(a, s, cursor, bounds).state.isHovered == IsOver(cursor, bounds)
    ensures HoverConsistent(DefaultState)
  {
  }

  /** The message each remaining event is bound to: left release or lifted
      finger, right and middle press and release, and any wheel movement. */
  function BoundMessage<M>(a: Area<M>, event: Event): (r: Option<M>)
    ensures event == ButtonReleased(Left) || event.FingerLifted? ==> r == a.onRelease
    ensures event == ButtonPressed(Right) ==> r == a.onRightPress
    ensures event == ButtonReleased(Right) ==> r == a.onRightRelease
    ensures event == ButtonPressed(Middle) ==> r == a.onMiddlePress
    ensures event == ButtonReleased(Middle) ==> r == a.onMiddleRelease
    ensures event.WheelScrolled? ==>
              (r.Some? <==> a.onScroll.Some?) && (r.Some? ==> r.value == a.onScroll.value(event.delta))
    ensures r.Some? ==>
              || event == ButtonReleased(Left) || event.FingerLifted?
              || event == ButtonPressed(Right) || event == ButtonReleased(Right)
              || event == ButtonPressed(Middle) || event == ButtonReleased(Middle)
              || event.WheelScrolled?
    ensures IsPress(event) ==> r.None?
  {
    match event
    case ButtonReleased(Left) => a.onRelease
    case FingerLifted(_, _) => a.onRelease
    case ButtonPressed(Right) => a.onRightPress
    case ButtonReleased(Right) => a.onRightRelease
    case ButtonPressed(Middle) => a.onMiddlePress
    case ButtonReleased(Middle) => a.onMiddleRelease
    case WheelScrolled(delta) =>
      (match a.onScroll
       case Some(f) => Some(f(delta))
       case None => None)
    case _ => None
  }

  /** The left or finger press: `on_press` is published with the bounds-local
      position, and with `on_double_click` set and a known cursor the press is
      classified, `on_double_click` published on a double click, and the
      click remembered. */
  function Press<M>(a: Area<M>, s: State, cursor: Cursor, bounds: Rectangle, newClick: Classifier)
    : (r: Outcome<State, M>)
    ensures r.status == Captured <==> a.onPress.Some? || (a.onDoubleClick.Some? && CursorPosition(cursor).Some?)
    ensures r.status == Ignored ==> r == Outcome(s, [], Ignored)
    ensures r.state == s.(previousClick := r.state.previousClick)
    ensures a.onDoubleClick.Some? && cursor.Available? ==>
              r.state.previousClick == Some(newClick(cursor.position, Left, s.previousClick))
    ensures !(a.onDoubleClick.Some? && cursor.Available?) ==> r.state == s
    ensures |r.messages| == (if a.onPress.Some? && IsOver(cursor, bounds) then 1 else 0)
                            + (if a.onDoubleClick.Some? && cursor.Available?
                                  && newClick(cursor.position, Left, s.previousClick).kind == Double
                               then 1 else 0)
    ensures a.onPress.Some? && IsOver(cursor, bounds) ==>
              r.messages[0] == a.onPress.value.Get(PositionIn(cursor, bounds).value)
    ensures a.onDoubleClick.Some? && cursor.Available? && newClick(cursor.position, Left, s.previousClick).kind == Double ==>
              r.messages[|r.messages| - 1] == a.onDoubleClick.value
  {
    var pressed :=
      match a.onPress
      case Some(o) =>
        (match PositionIn(cursor, bounds)
         case Some(p) => [o.Get(p)]
         case None => [])
      case None => [];
    match (CursorPosition(cursor), a.onDoubleClick)
    case (Some(position), Some(message)) =>
      var click := newClick(position, Left, s.previousClick);
      Outcome(s.(previousClick := Some(click)), pressed + (if click.kind == Double then [message] else []), Captured)
    case _ =>
      Outcome(s, pressed, if a.onPress.Some? then Captured else Ignored)
  }

  /** The part of `update` after the hover block. Away from the area every
      event is ignored. Over it, a left or finger press is handled by `Press`;
      any other event publishes the message it is bound to and is captured,
      or is ignored when nothing is bound. Only a handled press touches the
      state, and only its remembered click. */
  function Dispatch<M>(a: Area<M>, s: State, event: Event, cursor: Cursor, bounds: Rectangle, newClick: Classifier)
    : (r: Outcome<State, M>)
    ensures !IsOver(cursor, bounds) ==> r == Outcome(s, [], Ignored)
    ensures r.state == s.(previousClick := r.state.previousClick)
    ensures r.state.previousClick != s.previousClick ==>
              IsPress(event) && IsOver(cursor, bounds) && a.onDoubleClick.Some?
    ensures r.status == Ignored ==> r.state == s && r.messages == []
    ensures IsOver(cursor, bounds) && IsPress(event) ==>
              && (r.status == Captured <==> a.onPress.Some? || (a.onDoubleClick.Some? && CursorPosition(cursor).Some?))
              && (a.onDoubleClick.Some? ==>
                    r.state.previousClick == Some(newClick(cursor.position, Left, s.previousClick)))
              && |r.messages| == (if a.onPress.Some? then 1 else 0)
                                 + (if a.onDoubleClick.Some? && newClick(cursor.position, Left, s.previousClick).kind == Double
                                    then 1 else 0)
              && (a.onPress.Some? ==> r.messages[0] == a.onPress.value.Get(PositionIn(cursor, bounds).value))
              && (a.onDoubleClick.Some? && newClick(cursor.position, Left, s.previousClick).kind == Double ==>
                    r.messages[|r.messages| - 1] == a.onDoubleClick.value)
    ensures IsOver(cursor, bounds) && !IsPress(event) ==>
              && r.state == s
              && r.messages == BoundMessage(a, event).ToSeq()
              && (r.status == Captured <==> BoundMessage(a, event).Some?)
  {
    if !IsOver(cursor, bounds) then Outcome(s, [], Ignored)
    else
      var pressed :=
        if IsPress(event) then Press(a, s, cursor, bounds, newClick)
        else Outcome(s, [], Ignored);
      if pressed.status == Captured then pressed
      else
        match BoundMessage(a, event)
        case Some(m) => Outcome(s, [m], Captured)
        case None => Outcome(s, [], Ignored)
  }

  /** The area's own `update`: the hover block, then the dispatch on the state
      it leaves. Hover messages come first; at most three messages result
      (a hover message, `on_press`, `on_double_click`). */
  function Update<M>(a: Area<M>, s: State, event: Event, cursor: Cursor, bounds: Rectangle, newClick: Classifier)
    : (r: Outcome<State, M>)
    ensures var h := Hover(a, s, cursor, bounds);
            && r.status == Dispatch(a, h.state, event, cursor, bounds, newClick).status
            && r.messages == h.message.ToSeq() + Dispatch(a, h.state, event, cursor, bounds, newClick).messages
            && r.state == Dispatch(a, h.state, event, cursor, bounds, newClick).state
    ensures |r.messages| <= 3
    ensures r.state.isHovered == (if Changed(s, cursor, bounds) then IsOver(cursor, bounds) else s.isHovered)
    ensures r.state.cursorPosition == CursorPosition(cursor) && r.state.bounds == bounds
    ensures !IsOver(cursor, bounds) ==> r.status == Ignored && |r.messages| <= 1
  {
    var h := Hover(a, s, cursor, bounds);
    var d := Dispatch(a, h.state, event, cursor, bounds, newClick);
    Outcome(d.state, h.message.ToSeq() + d.messages, d.status)
  }

  /** `MouseArea::on_event`: the content sees the event first. When the
      content captures it, the area keeps its state and adds nothing to the
      content's messages; otherwise the area's own update follows. */
  function OnEvent<M>(a: Area<M>, s: State, event: Event, cursor: Cursor, bounds: Rectangle, newClick: Classifier,
                      contentStatus: EventStatus, contentMessages: seq<M>)
    : (r: Outcome<State, M>)
    ensures contentStatus == Captured ==> r == Outcome(s, contentMessages, Captured)
    ensures contentStatus == Ignored ==>
              && r.state == Update(a, s, event, cursor, bounds, newClick).state
              && r.status == Update(a, s, event, cursor, bounds, newClick).status
              && r.messages == contentMessages + Update(a, s, event, cursor, bounds, newClick).messages
  {
    if contentStatus == Captured then Outcome(s, contentMessages, Captured)
    else
      var u := Update(a, s, event, cursor, bounds, newClick);
      Outcome(u.state, contentMessages + u.messages, u.status)
  }

  /** `MouseArea::mouse_interaction`: the configured shape replaces the
      content's only where the content asks for none and the cursor is over
      the area. */
  function AreaInteraction<M>(a: Area<M>, content: Interaction, cursor: Cursor, bounds: Rectangle): (r: Interaction)
    ensures r != content ==> a.interaction.Some? && r == a.interaction.value
    ensures a.interaction.Some? && content == NoInteraction && IsOver(cursor, bounds) ==> r == a.interaction.value
    ensures content != NoInteraction || !IsOver(cursor, bounds) ==> r == content
  {
    match a.interaction
    case Some(i) => if content == NoInteraction && IsOver(cursor, bounds) then i else content
    case None => content
  }

  /** Over the area, a left or finger press is captured exactly when the area
      has a press or double-click message: the cursor position the
      double-click bookkeeping needs is always known there. */
  lemma PressCapturedIffConfigured<M>(a: Area<M>, s: State, event: Event, cursor: Cursor, bounds: Rectangle, newClick: Classifier)
    requires IsPress(event) && IsOver(cursor, bounds)
    ensures Dispatch(a, s, event, cursor, bounds, newClick).status == Captured <==>
              a.onPress.Some? || a.onDoubleClick.Some?
  {
  }

  /** A press handled without a double-click message leaves the remembered
      click alone. */
  lemma PressWithoutDoubleClickKeepsClick<M>(a: Area<M>, s: State, event: Event, cursor: Cursor, bounds: Rectangle, newClick: Classifier)
    requires a.onDoubleClick.None?
    ensures Update(a, s, event, cursor, bounds, newClick).state.previousClick == s.previousClick
  {
  }

  /** The configured shape and the area's own event handling cover the same
      ground: away from the area the content's shape is shown and every
      event the content leaves alone is ignored, with at most a hover
      message; a replaced shape is only ever shown over the area. */
  lemma InteractionOverrideOnlyWhereEventsHandled<M>(a: Area<M>, content: Interaction, s: State, event: Event,
                                                     cursor: Cursor, bounds: Rectangle, newClick: Classifier)
    ensures AreaInteraction(a, content, cursor, bounds) != content ==> IsOver(cursor, bounds)
    ensures !IsOver(cursor, bounds) ==>
              && AreaInteraction(a, content, cursor, bounds) == content
              && Update(a, s, event, cursor, bounds, newClick).status == Ignored
              && Update(a, s, event, cursor, bounds, newClick).messages == Hover(a, s, cursor, bounds).message.ToSeq()
  {
  }

  /** With a fixed press message, a left or finger press anywhere over the
      area publishes that message right after any hover message, and the
      press is captured. */
  lemma DirectPressPublishesItsMessage<M>(a: Area<M>, m: M, s: State, event: Event,
                                         cursor: Cursor, bounds: Rectangle, newClick: Classifier)
    requires a.onPress == Some(Direct(m)) && IsPress(event) && IsOver(cursor, bounds)
    ensures var u := Update(a, s, event, cursor, bounds, newClick);
            var k := |Hover(a, s, cursor, bounds).message.ToSeq()|;
            && u.status == Captured
            && k < |u.messages|
            && u.messages[k] == m
  {
  }
}

=== FILE: pick_list.dfy ===
/**
 The pick list (combo box): a closed field that opens a dropdown menu on a
 press, closes it on the next press unless that press lands on a disabled
 option, selects the next or previous enabled option on command+wheel while
 closed, and remembers the keyboard modifiers it is told about.
 */
module PickList {
  import opened Core
  import opened Seqs
  import Menu
  import Scroll

  /** The widget state kept across frames. The menu's own sub-tree and the
      cached text paragraphs belong to drawing and are not modelled. */
  datatype State = State(isOpen: bool, hoveredOption: Option<nat>, keyboardModifiers: Modifiers)

  /** `State::new`: closed, nothing hovered, no modifier held. */
  const InitialState := State(false, None, NoModifiers)

  /** A fresh widget shows no menu and is not styled as opened; its hovered
      index is trivially valid; the wheel does not reach the option search
      until a modifier change reports the command key; and the first press
      over the field opens the list. */
  lemma InitialStateIsClosed<T, M>(p: PickList<T, M>, delta: ScrollDelta, cursor: Cursor, bounds: Rectangle)
    ensures Overlay(p, InitialState).None?
    ensures DrawStatus(InitialState, cursor, bounds) != Opened
    ensures Menu.HoverValid(InitialState.hoveredOption, |p.options|)
    ensures !WheelHandled(InitialState, delta, cursor, bounds)
    ensures IsOver(cursor, bounds) ==> OnPress(p, InitialState, cursor, bounds).state.isOpen
  {
  }

  /** The widget as the application builds it each frame. `disabled` is what
      the application's disabled-mask function returns for `options`;
      `menuLineHeight` is the absolute line height the renderer gives the
      menu's rows. */
  datatype PickList<!T, M> = PickList(
    options: seq<T>,
    disabled: Option<seq<bool>>,
    selected: Option<T>,
    placeholder: Option<string>,
    onSelect: T -> M,
    onOpen: Option<M>,
    onClose: Option<M>,
    padding: Menu.Padding,
    menuLineHeight: real)

  /** The mask the scroll handler and the label consult: the application's
      mask, or all options enabled when it gives none. */
  function Mask<T, M>(p: PickList<T, M>): (r: seq<bool>)
    ensures p.disabled.Some? ==> r == p.disabled.value
    ensures p.disabled.None? ==> |r| == |p.options| && forall i :: 0 <= i < |r| ==> !r[i]
  {
    match p.disabled
    case Some(d) => d
    case None => seq(|p.options|, _ => false)
  }

  /** A press while open is swallowed when the hovered option is marked
      disabled by a mask long enough to mention it. */
  predicate PressAbsorbed<T, M>(p: PickList<T, M>, state: State) {
    && state.hoveredOption.Some?
    && p.disabled.Some?
    && state.hoveredOption.value < |p.disabled.value|
    && p.disabled.value[state.hoveredOption.value]
  }

  /** The left-button or finger press. While open: a press on a disabled
      hovered option is captured and changes nothing; any other press closes
      the list, publishes `on_close` when set, and leaves the hovered index
      alone. While closed: a press over the field opens the list with the
      selection's first index as the hovered option and publishes `on_open`
      when set; a press elsewhere is ignored. */
  function OnPress<T(==), M>(p: PickList<T, M>, state: State, cursor: Cursor, bounds: Rectangle)
    : (r: Outcome<State, M>)
    ensures r.status == Ignored <==> !state.isOpen && !IsOver(cursor, bounds)
    ensures r.status == Ignored ==> r.state == state && r.messages == []
    ensures r.state.keyboardModifiers == state.keyboardModifiers
    ensures state.isOpen ==> r.state.hoveredOption == state.hoveredOption
    ensures state.isOpen ==> (r.state.isOpen <==> PressAbsorbed(p, state))
    ensures state.isOpen && PressAbsorbed(p, state) ==> r.messages == []
    ensures state.isOpen && !PressAbsorbed(p, state) ==> r.messages == p.onClose.ToSeq()
    ensures !state.isOpen && IsOver(cursor, bounds) ==>
              && r.state.isOpen
              && r.messages == p.onOpen.ToSeq()
              && (r.state.hoveredOption.None? <==> p.selected.None? || p.selected.value !in p.options)
              && (r.state.hoveredOption.Some? ==>
                    && r.state.hoveredOption.value < |p.options|
                    && p.options[r.state.hoveredOption.value] == p.selected.value
                    && forall j :: 0 <= j < r.state.hoveredOption.value ==> p.options[j] != p.selected.value)
  {
    if state.isOpen then
      if PressAbsorbed(p, state) then Outcome(state, [], Captured)
      else Outcome(state.(isOpen := false), p.onClose.ToSeq(), Captured)
    else if IsOver(cursor, bounds) then
      var hovered := match p.selected
        case Some(s) => IndexOf(p.options, s)
        case None => None;
      Outcome(state.(isOpen := true, hoveredOption := hovered), p.onOpen.ToSeq(), Captured)
    else
      Outcome(state, [], Ignored)
  }

  /** The wheel reaches the option search only as a line scroll with the
      command key held, over the field, while the list is closed. */
  predicate WheelHandled(state: State, delta: ScrollDelta, cursor: Cursor, bounds: Rectangle) {
    delta.Lines? && state.keyboardModifiers.command && IsOver(cursor, bounds) && !state.isOpen
  }

  /** What a handled wheel movement asks of the widget: see `Scroll.ScrollDefined`. */
  predicate WheelDefined<T(==), M>(p: PickList<T, M>, state: State, delta: ScrollDelta, cursor: Cursor, bounds: Rectangle) {
    WheelHandled(state, delta, cursor, bounds) ==> Scroll.ScrollDefined(p.options, Mask(p), p.selected, delta.y)
  }

  /** Command+wheel: a handled movement is captured whether or not an option
      is found, and publishes `on_select` for the option the search finds;
      any other wheel movement, pixel scrolls included, is ignored. The state
      never changes. */
  function OnWheel<T(==), M>(p: PickList<T, M>, state: State, delta: ScrollDelta, cursor: Cursor, bounds: Rectangle)
    : (r: Outcome<State, M>)
    requires WheelDefined(p, state, delta, cursor, bounds)
    ensures r.state == state
    ensures r.status == Captured <==> WheelHandled(state, delta, cursor, bounds)
    ensures |r.messages| <= 1
    ensures |r.messages| == 1 ==> r.status == Captured && delta.y != 0.0
    ensures |r.messages| == 1 ==>
              exists j :: 0 <= j < |p.options| && !Mask(p)[j] && Some(p.options[j]) != p.selected
                          && r.messages[0] == p.onSelect(p.options[j])
    ensures WheelHandled(state, delta, cursor, bounds) ==>
              (|r.messages| == 1 <==> Scroll.ScrollNext(p.options, Mask(p), p.selected, delta.y).Some?)
    ensures WheelHandled(state, delta, cursor, bounds) && Scroll.ScrollNext(p.options, Mask(p), p.selected, delta.y).Some? ==>
              r.messages == [p.onSelect(Scroll.ScrollNext(p.options, Mask(p), p.selected, delta.y).value)]
  {
    if WheelHandled(state, delta, cursor, bounds) then
      match Scroll.ScrollNext(p.options, Mask(p), p.selected, delta.y)
      case Some(next) => Outcome(state, [p.onSelect(next)], Captured)
      case None => Outcome(state, [], Captured)
    else
      Outcome(state, [], Ignored)
  }

  /** Command+wheel down over the closed field, with the option at index `i`
      selected, publishes the option at the least enabled index after `i`,
      and nothing when every later option is disabled. */
  lemma WheelDownSelectsNextEnabled<T, M>(p: PickList<T, M>, state: State, delta: ScrollDelta, cursor: Cursor, bounds: Rectangle, i: nat)
    requires Distinct(p.options) && |Mask(p)| >= |p.options| && i < |p.options| && p.selected == Some(p.options[i])
    requires WheelHandled(state, delta, cursor, bounds) && delta.y < 0.0
    ensures var r := OnWheel(p, state, delta, cursor, bounds);
            && r.status == Captured
            && (Scroll.AllDisabled(Mask(p), i + 1, |p.options|) ==> r.messages == [])
            && (forall j :: i < j < |p.options| && !Mask(p)[j] && Scroll.AllDisabled(Mask(p), i + 1, j) ==>
                  r.messages == [p.onSelect(p.options[j])])
  {
    Scroll.ScrollForwardFromSelection(p.options, Mask(p), i, delta.y);
  }

  /** Command+wheel up over the closed field, with the option at index `i`
      selected, publishes the option at the greatest enabled index before
      `i`, and nothing when every earlier option is disabled. */
  lemma WheelUpSelectsPreviousEnabled<T, M>(p: PickList<T, M>, state: State, delta: ScrollDelta, cursor: Cursor, bounds: Rectangle, i: nat)
    requires Distinct(p.options) && |Mask(p)| >= |p.options| && i < |p.options| && p.selected == Some(p.options[i])
    requires WheelHandled(state, delta, cursor, bounds) && delta.y > 0.0
    ensures var r := OnWheel(p, state, delta, cursor, bounds);
            && r.status == Captured
            && (Scroll.AllDisabled(Mask(p), 0, i) ==> r.messages == [])
            && (forall j :: 0 <= j < i && !Mask(p)[j] && Scroll.AllDisabled(Mask(p), j + 1, i) ==>
                  r.messages == [p.onSelect(p.options[j])])
  {
    Scroll.ScrollBackwardFromSelection(p.options, Mask(p), i, delta.y);
  }

  /** With options A, B, C, B disabled and A selected, command+wheel down
      over the closed field skips B and publishes C. */
  lemma WheelDownSkipsDisabledOption()
    ensures var p := PickList(["A", "B", "C"], Some([false, true, false]), Some("A"), None, (s: string) => s,
                              None, None, Menu.Padding(5.0, 10.0, 5.0, 10.0), 20.0);
            var state := State(false, None, Modifiers(true, false, false));
            OnWheel(p, state, Lines(0.0, -1.0), Available(Point(10.0, 10.0)), Rectangle(0.0, 0.0, 100.0, 30.0))
              == Outcome(state, ["C"], Captured)
  {
  }

  /** `PickList::on_event`. A press goes to `OnPress` and a wheel movement to
      `OnWheel`, with their outcomes. Only a press opens or closes the list,
      only opening moves the hovered index (to a valid one), and at most one
      message is published. `ModifiersChanged` stores the new modifiers and
      does nothing else, not even capture the event. */
  function OnEvent<T(==), M>(p: PickList<T, M>, state: State, event: Event, cursor: Cursor, bounds: Rectangle)
    : (r: Outcome<State, M>)
    requires event.WheelScrolled? ==> WheelDefined(p, state, event.delta, cursor, bounds)
    ensures |r.messages| <= 1
    ensures r.state.isOpen != state.isOpen ==> IsPress(event)
    ensures r.state.hoveredOption != state.hoveredOption ==> IsPress(event) && !state.isOpen && r.state.isOpen
    ensures Menu.HoverValid(state.hoveredOption, |p.options|) ==> Menu.HoverValid(r.state.hoveredOption, |p.options|)
    ensures r.state.keyboardModifiers != state.keyboardModifiers ==> event.ModifiersChanged?
    ensures event.ModifiersChanged? ==>
              && r.state.keyboardModifiers == event.modifiers
              && r.state.isOpen == state.isOpen && r.state.hoveredOption == state.hoveredOption
              && r.messages == [] && r.status == Ignored
    ensures IsPress(event) && !state.isOpen ==>
              (r.state.isOpen <==> IsOver(cursor, bounds)) && (r.status == Captured <==> IsOver(cursor, bounds))
    ensures IsPress(event) && state.isOpen ==> r.status == Captured && (r.state.isOpen <==> PressAbsorbed(p, state))
    ensures event.WheelScrolled? ==>
              && r.state == state
              && (r.status == Captured <==> WheelHandled(state, event.delta, cursor, bounds))
              && (WheelHandled(state, event.delta, cursor, bounds) ==>
                    r.messages == (match Scroll.ScrollNext(p.options, Mask(p), p.selected, event.delta.y)
                                   case Some(o) => [p.onSelect(o)]
                                   case None => []))
    ensures !(IsPress(event) || event.WheelScrolled? || event.ModifiersChanged?) ==> r == Outcome(state, [], Ignored)
  {
    match event
    case ButtonPressed(Left) => OnPress(p, state, cursor, bounds)
    case FingerPressed(_, _) => OnPress(p, state, cursor, bounds)
    case WheelScrolled(delta) => OnWheel(p, state, delta, cursor, bounds)
    case ModifiersChanged(m) => Outcome(state.(keyboardModifiers := m), [], Ignored)
    case _ => Outcome(state, [], Ignored)
  }

  /** The menu list handed to the overlay: the widget's options and mask, the
      selection callback, the widget's padding, and no hover callback. The
      menu's bounds-safe reading of the mask disables exactly the options the
      wheel search and the label treat as disabled. */
  function MenuList<T, M>(p: PickList<T, M>): (r: Menu.List<T, M>)
    ensures r.options == p.options && r.onOptionHovered.None?
    ensures forall i: nat :: Menu.IsDisabled(r, i) <==> i < |Mask(p)| && Mask(p)[i]
  {
    Menu.List(p.options, p.disabled, p.onSelect, None, p.menuLineHeight, p.padding)
  }

  /** `PickList::overlay`: the menu exists exactly while the list is open. */
  function Overlay<T, M>(p: PickList<T, M>, state: State): (r: Option<Menu.List<T, M>>)
    ensures r.Some? <==> state.isOpen
    ensures r.Some? ==> r.value.options == p.options && r.value.disabled == p.disabled
    ensures r.Some? ==> r.value.onOptionHovered.None?
  {
    if state.isOpen then Some(MenuList(p)) else None
  }

  /** An event delivered to the open menu. The menu edits the widget's hovered
      index in place, and its selection hook closes the list before producing
      the `on_select` message, which is the only message the menu can
      publish: while the list stays open nothing is published. Without a
      menu nothing happens. */
  function OverlayOnEvent<T, M>(p: PickList<T, M>, state: State, event: Event, cursor: Cursor, listBounds: Rectangle)
    : (r: Outcome<State, M>)
    requires Menu.WellFormed(MenuList(p))
    ensures !state.isOpen ==> r == Outcome(state, [], Ignored)
    ensures r.state.keyboardModifiers == state.keyboardModifiers
    ensures |r.messages| <= 1
    ensures state.isOpen ==>
              (r.state.isOpen <==> Menu.SelectedRow(MenuList(p), event, cursor, listBounds).None?)
    ensures state.isOpen && !r.state.isOpen ==>
              r.messages == [p.onSelect(p.options[Menu.SelectedRow(MenuList(p), event, cursor, listBounds).value])]
    ensures state.isOpen ==>
              r.state.hoveredOption == Menu.OnEvent(MenuList(p), state.hoveredOption, event, cursor, listBounds).state
    ensures state.isOpen && r.state.isOpen ==> r.messages == []
    ensures event.CursorMoved? ==> r.messages == []
    ensures Menu.HoverValid(state.hoveredOption, |p.options|) ==> Menu.HoverValid(r.state.hoveredOption, |p.options|)
  {
    match Overlay(p, state)
    case None => Outcome(state, [], Ignored)
    case Some(list) =>
      var o := Menu.OnEvent(list, state.hoveredOption, event, cursor, listBounds);
      var closed := Menu.SelectedRow(list, event, cursor, listBounds).Some?;
      Outcome(state.(hoveredOption := o.state, isOpen := !closed), o.messages, o.status)
  }

  /** The press the pick list itself absorbs is the one its menu would draw
      as a disabled row. */
  lemma AbsorbedPressIsDisabledRow<T, M>(p: PickList<T, M>, state: State)
    ensures PressAbsorbed(p, state) <==>
              state.hoveredOption.Some? && Menu.IsDisabled(MenuList(p), state.hoveredOption.value)
  {
  }

  /** The menu moves the hovered index only onto enabled rows, so once it
      has moved it the pick list's own absorbing check cannot fire: a later
      press on a disabled row, which the menu captures without a message,
      reaches the pick list as a press that closes the list. The check only
      fires while the hovered index is still the one set on opening, that is,
      when the selected option itself is disabled. */
  lemma MovedHoverIsNeverAbsorbed<T, M>(p: PickList<T, M>, state: State, event: Event, cursor: Cursor, listBounds: Rectangle)
    requires Menu.WellFormed(MenuList(p))
    ensures var o := OverlayOnEvent(p, state, event, cursor, listBounds);
            o.state.hoveredOption != state.hoveredOption ==> !PressAbsorbed(p, o.state)
  {
  }

  /** `Status` of the field for styling. */
  datatype Status = Active | Hovered | Opened

  /** The status `draw` styles the field with. */
  function DrawStatus(state: State, cursor: Cursor, bounds: Rectangle): (r: Status)
    ensures r == Opened <==> state.isOpen
    ensures r == Hovered <==> !state.isOpen && IsOver(cursor, bounds)
  {
    if state.isOpen then Opened
    else if IsOver(cursor, bounds) then Hovered
    else Active
  }

  /** `PickList::mouse_interaction`. */
  function MouseInteraction(cursor: Cursor, bounds: Rectangle): (r: Interaction)
    ensures r == Pointer <==> IsOver(cursor, bounds)
    ensures r != Pointer ==> r == DefaultInteraction
  {
    if IsOver(cursor, bounds) then Pointer else DefaultInteraction
  }

  /** On a closed field the hovered style and the pointer hand appear exactly
      where a press opens the list, and after that press the field is styled
      as opened. */
  lemma HoverStyleMatchesOpeningPress<T, M>(p: PickList<T, M>, state: State, cursor: Cursor, bounds: Rectangle)
    requires !state.isOpen
    ensures var o := OnPress(p, state, cursor, bounds);
            (o.state.isOpen <==> DrawStatus(state, cursor, bounds) == Hovered)
            && (o.state.isOpen <==> MouseInteraction(cursor, bounds) == Pointer)
            && DrawStatus(o.state, cursor, bounds) == (if o.state.isOpen then Opened else Active)
  {
  }

  /** The colours the label can be drawn in. */
  datatype LabelColor = TextColor | DisabledTextColor | PlaceholderColor

  /** The label as the source draws it: no label, a label in a colour, or an
      index past the end of the mask, which panics. */
  datatype LabelDraw = NoLabel | Drawn(color: LabelColor) | MaskIndexPanic

  /** The label colour of `draw` as written: the selected option's first index
      is looked up in the mask without a length check. */
  function LabelAsWritten<T(==), M>(p: PickList<T, M>): (r: LabelDraw)
    ensures r == MaskIndexPanic ==>
              p.selected.Some? && IndexOf(p.options, p.selected.value).Some?
              && IndexOf(p.options, p.selected.value).value >= |Mask(p)|
  {
    match p.selected
    case Some(s) =>
      (match IndexOf(p.options, s)
       case Some(i) =>
         if i < |Mask(p)| then (if Mask(p)[i] then Drawn(DisabledTextColor) else Drawn(TextColor))
         else MaskIndexPanic
       case None => Drawn(TextColor))
    case None =>
      if p.placeholder.Some? then Drawn(PlaceholderColor) else NoLabel
  }

  /** A two-option list whose mask mentions only the first option, with the
      second one selected, makes the label lookup run past the mask. */
  lemma LabelAsWrittenPanicsOnShortMask()
    ensures var p := PickList([1, 2], Some([false]), Some(2), None, (x: int) => x, None, None,
                              Menu.Padding(5.0, 10.0, 5.0, 10.0), 20.0);
            LabelAsWritten(p) == MaskIndexPanic
  {
  }

  /** The label colour with the mask read the way the rest of the widget reads
      it (`Menu.DisabledAt`): nothing is drawn without a selection or a
      placeholder; the placeholder colour is used without a selection; the
      disabled colour exactly when the selection is found and its entry is
      set; the text colour otherwise. */
  function LabelColorOf<T(==), M>(p: PickList<T, M>): (r: Option<LabelColor>)
    ensures r.None? <==> p.selected.None? && p.placeholder.None?
    ensures r == Some(PlaceholderColor) <==> p.selected.None? && p.placeholder.Some?
    ensures r == Some(DisabledTextColor) <==>
              p.selected.Some? && exists i :: 0 <= i < |p.options| && i < |Mask(p)| && Mask(p)[i]
                                             && IndexOf(p.options, p.selected.value) == Some(i)
  {
    match p.selected
    case Some(s) =>
      (match IndexOf(p.options, s)
       case Some(i) => if Menu.DisabledAt(Some(Mask(p)), i) then Some(DisabledTextColor) else Some(TextColor)
       case None => Some(TextColor))
    case None =>
      if p.placeholder.Some? then Some(PlaceholderColor) else None
  }

  /** The corrected colour never panics and agrees with the source wherever
      the source does not panic. */
  lemma LabelColorAgreesWithSource<T, M>(p: PickList<T, M>)
    ensures LabelAsWritten(p) != MaskIndexPanic ==>
              LabelAsWritten(p) == (match LabelColorOf(p) case Some(c) => Drawn(c) case None => NoLabel)
    ensures |Mask(p)| >= |p.options| ==> LabelAsWritten(p) != MaskIndexPanic
  {
  }
}

=== FILE: scroll.dfy ===
/**
 The search behind command+wheel on a closed pick list: from the current
 selection, step to the next (wheel down) or previous (wheel up) option that is
 not disabled, stopping at the end of the list. The search is modelled as the
 pick list writes it, with `find_next` restarting from the front of the
 iterator at each step, and then proved to pick the nearest enabled option
 beyond the selection.
 */
module Scroll {
  import opened Core
  import opened Seqs

  /** `find_next`: consume the iterator up to and including the first element
      equal to `x`, then yield the element after it. An `x` that never occurs
      exhausts the iterator, so nothing follows. */
  function FindNext<T(==)>(x: T, it: seq<T>): (r: Option<T>)
    ensures r.Some? ==> x in it && r.value in it
    ensures r.Some? <==> x in it && IndexOf(it, x).value + 1 < |it|
    ensures r.Some? ==> r.value == it[IndexOf(it, x).value + 1]
  {
    match IndexOf(it, x)
    case None => None
    case Some(k) => if k + 1 < |it| then Some(it[k + 1]) else None
  }

  /** How far the walk can still go: the number of elements from the current
      candidate to the end of the iterator. */
  function Remaining<T(==)>(it: seq<T>, next: Option<T>): nat {
    match next
    case None => 0
    case Some(o) =>
      match IndexOf(it, o)
      case None => 0
      case Some(k) => |it| - k
  }

  /** The `while let Some(option) = next` loop: a candidate whose position in
      the option list is enabled ends the walk; any other candidate is
      replaced by what `find_next` yields after it. */
  function Walk<T(==)>(options: seq<T>, it: seq<T>, mask: seq<bool>, next: Option<T>): (r: Option<T>)
    requires Distinct(it) && |mask| >= |options|
    requires next.Some? ==> next.value in it
    ensures r.Some? ==> next.Some? && r.value in it
    ensures r.Some? ==> IndexOf(options, r.value).Some? && !mask[IndexOf(options, r.value).value]
    ensures r.Some? ==> IndexOf(it, next.value).value <= IndexOf(it, r.value).value
    decreases Remaining(it, next)
  {
    match next
    case None => None
    case Some(o) =>
      var after := FindNext(o, it);
      assert after.Some? ==> IndexOf(it, after.value) == Some(IndexOf(it, o).value + 1) by {
        if after.Some? {
          IndexOfDistinct(it, IndexOf(it, o).value + 1);
        }
      }
      match IndexOf(options, o)
      case Some(pos) => if !mask[pos] then next else Walk(options, it, mask, after)
      case None => Walk(options, it, mask, after)
  }

  /** `iter().enumerate().find(|(i, _)| !disabled[*i])` from index `i` on. */
  function FirstEnabled<T>(options: seq<T>, mask: seq<bool>, i: nat): (r: Option<T>)
    requires |mask| >= |options|
    ensures r.Some? ==> exists j :: i <= j < |options| && options[j] == r.value && !mask[j]
    ensures (exists j :: i <= j < |options| && !mask[j]) ==> r.Some?
    decreases |options| - i
  {
    if i >= |options| then None
    else if !mask[i] then Some(options[i])
    else FirstEnabled(options, mask, i + 1)
  }

  /** The same search over `rev()`: the enabled option of greatest index below `e`. */
  function LastEnabled<T>(options: seq<T>, mask: seq<bool>, e: nat): (r: Option<T>)
    requires |mask| >= |options| && e <= |options|
    ensures r.Some? ==> exists j :: 0 <= j < e && options[j] == r.value && !mask[j]
    ensures (exists j :: 0 <= j < e && !mask[j]) ==> r.Some?
  {
    if e == 0 then None
    else if !mask[e - 1] then Some(options[e - 1])
    else LastEnabled(options, mask, e - 1)
  }

  /** What the scroll handler needs to terminate without indexing past the
      mask: a wheel movement consults a mask that covers every option, and a
      walk from a selection runs over options without repeats. */
  predicate ScrollDefined<T(==)>(options: seq<T>, mask: seq<bool>, selected: Option<T>, y: real) {
    y != 0.0 ==> |mask| >= |options| && (selected.Some? ==> Distinct(options))
  }

  /** The option the wheel selects: scrolling down (`y < 0`) walks forward from
      the selection, scrolling up walks backward, and without a selection the
      first or last enabled option is taken. A zero movement selects nothing.
      Whatever is selected is an enabled option, and never the current
      selection itself. */
  function ScrollNext<T(==)>(options: seq<T>, mask: seq<bool>, selected: Option<T>, y: real): (r: Option<T>)
    requires ScrollDefined(options, mask, selected, y)
    ensures r.Some? ==> y != 0.0 && exists j :: 0 <= j < |options| && options[j] == r.value && !mask[j]
    ensures r.Some? ==> r != selected
    ensures y == 0.0 ==> r == None
  {
    if y < 0.0 then
      match selected
      case Some(s) => WalkFrom(options, options, mask, s)
      case None => FirstEnabled(options, mask, 0)
    else if y > 0.0 then
      match selected
      case Some(s) =>
        ReverseDistinct(options);
        WalkFrom(options, Reverse(options), mask, s)
      case None => LastEnabled(options, mask, |options|)
    else None
  }

  /** `find_next` from the selection followed by the walk, over iterator `it`. */
  function WalkFrom<T(==)>(options: seq<T>, it: seq<T>, mask: seq<bool>, s: T): (r: Option<T>)
    requires Distinct(it) && |mask| >= |options|
    ensures r.Some? ==> exists j :: 0 <= j < |options| && options[j] == r.value && !mask[j]
    ensures r.Some? ==> r.value != s
  {
    var first := FindNext(s, it);
    if first.Some? then
      IndexOfDistinct(it, IndexOf(it, s).value + 1);
      Walk(options, it, mask, first)
    else
      None
  }

  /** Every mask entry in `[lo, hi)` is set. */
  predicate AllDisabled(mask: seq<bool>, lo: int, hi: int)
    requires 0 <= lo && hi <= |mask|
  {
    forall k :: lo <= k < hi ==> mask[k]
  }

  /** One step of the forward walk: an enabled candidate is the answer, a
      disabled one hands over to its successor. */
  lemma WalkForwardStep<T>(options: seq<T>, mask: seq<bool>, j: nat)
    requires Distinct(options) && |mask| >= |options| && j < |options|
    ensures Walk(options, options, mask, Some(options[j])) ==
              if !mask[j] then Some(options[j])
              else Walk(options, options, mask, if j + 1 < |options| then Some(options[j + 1]) else None)
  {
    IndexOfDistinct(options, j);
    if j + 1 < |options| {
      IndexOfDistinct(options, j + 1);
    }
  }

  /** The walk forward from candidate index `j` ends at the least enabled
      index at or after `j`, or finds nothing when there is none. */
  lemma {:induction false} WalkForward<T>(options: seq<T>, mask: seq<bool>, j: nat)
    requires Distinct(options) && |mask| >= |options| && j <= |options|
    ensures var r := Walk(options, options, mask, if j < |options| then Some(options[j]) else None);
            (AllDisabled(mask, j, |options|) ==> r == None)
            && (forall k :: j <= k < |options| && !mask[k] && AllDisabled(mask, j, k) ==> r == Some(options[k]))
    decreases |options| - j
  {
    var n := |options|;
    if j < n {
      WalkForwardStep(options, mask, j);
      if mask[j] {
        WalkForward(options, mask, j + 1);
        assert AllDisabled(mask, j, n) ==> AllDisabled(mask, j + 1, n);
        forall k | j <= k < n && !mask[k] && AllDisabled(mask, j, k)
          ensures AllDisabled(mask, j + 1, k)
        {
        }
      } else {
        forall k | j <= k < n && !mask[k] && AllDisabled(mask, j, k)
          ensures k == j
        {
        }
      }
    }
  }

  /** One step of the backward walk over the reversed list, where `it[n - e]`
      is option `e - 1`. */
  lemma WalkBackwardStep<T>(options: seq<T>, mask: seq<bool>, e: nat)
    requires Distinct(options) && |mask| >= |options| && 0 < e <= |options|
    ensures var it := Reverse(options);
            it[|options| - e] == options[e - 1]
            && Walk(options, it, mask, Some(it[|options| - e])) ==
                 if !mask[e - 1] then Some(options[e - 1])
                 else Walk(options, it, mask, if e > 1 then Some(it[|options| - (e - 1)]) else None)
  {
    ReverseDistinct(options);
    var it := Reverse(options);
    var n := |options|;
    IndexOfDistinct(it, n - e);
    IndexOfDistinct(options, e - 1);
    if e > 1 {
      IndexOfDistinct(it, n - e + 1);
    }
  }

  /** The walk over the reversed list from candidate `it[n - e]`, which is
      option `e - 1`, ends at the greatest enabled index below `e`, or finds
      nothing when there is none. */
  lemma {:induction false} WalkBackward<T>(options: seq<T>, mask: seq<bool>, e: nat)
    requires Distinct(options) && |mask| >= |options| && e <= |options|
    ensures var it := Reverse(options);
            var r := Walk(options, it, mask, if e > 0 then Some(it[|options| - e]) else None);
            (AllDisabled(mask, 0, e) ==> r == None)
            && (forall k :: 0 <= k < e && !mask[k] && AllDisabled(mask, k + 1, e) ==> r == Some(options[k]))
  {
    if e > 0 {
      WalkBackwardStep(options, mask, e);
      if mask[e - 1] {
        WalkBackward(options, mask, e - 1);
        forall k | 0 <= k < e && !mask[k] && AllDisabled(mask, k + 1, e)
          ensures k < e - 1 && AllDisabled(mask, k + 1, e - 1)
        {
        }
      } else {
        forall k | 0 <= k < e && !mask[k] && AllDisabled(mask, k + 1, e)
          ensures k == e - 1
        {
        }
      }
    }
  }

  /** Without a selection the forward search takes the least enabled index. */
  lemma {:induction false} FirstEnabledIsLeast<T>(options: seq<T>, mask: seq<bool>, i: nat)
    requires |mask| >= |options| && i <= |options|
    ensures var r := FirstEnabled(options, mask, i);
            (AllDisabled(mask, i, |options|) ==> r == None)
            && (forall k :: i <= k < |options| && !mask[k] && AllDisabled(mask, i, k) ==> r == Some(options[k]))
    decreases |options| - i
  {
    if i < |options| && mask[i] {
      FirstEnabledIsLeast(options, mask, i + 1);
    }
  }

  /** Without a selection the backward search takes the greatest enabled index. */
  lemma {:induction false} LastEnabledIsGreatest<T>(options: seq<T>, mask: seq<bool>, e: nat)
    requires |mask| >= |options| && e <= |options|
    ensures var r := LastEnabled(options, mask, e);
            (AllDisabled(mask, 0, e) ==> r == None)
            && (forall k :: 0 <= k < e && !mask[k] && AllDisabled(mask, k + 1, e) ==> r == Some(options[k]))
  {
    if e > 0 && mask[e - 1] {
      LastEnabledIsGreatest(options, mask, e - 1);
    }
  }

  /** Scrolling down from the option at index `i` selects the option at the
      least enabled index `j > i`, and nothing when every later option is
      disabled: no wrap-around to the front. */
  lemma ScrollForwardFromSelection<T>(options: seq<T>, mask: seq<bool>, i: nat, y: real)
    requires Distinct(options) && |mask| >= |options| && i < |options| && y < 0.0
    ensures var r := ScrollNext(options, mask, Some(options[i]), y);
            (AllDisabled(mask, i + 1, |options|) ==> r == None)
            && (forall j :: i < j < |options| && !mask[j] && AllDisabled(mask, i + 1, j) ==> r == Some(options[j]))
  {
    IndexOfDistinct(options, i);
    if i + 1 < |options| {
      IndexOfDistinct(options, i + 1);
    }
    WalkForward(options, mask, i + 1);
  }

  /** Scrolling up from the option at index `i` selects the option at the
      greatest enabled index `j < i`, and nothing when every earlier option is
      disabled: no wrap-around to the back. */
  lemma ScrollBackwardFromSelection<T>(options: seq<T>, mask: seq<bool>, i: nat, y: real)
    requires Distinct(options) && |mask| >= |options| && i < |options| && y > 0.0
    ensures var r := ScrollNext(options, mask, Some(options[i]), y);
            (AllDisabled(mask, 0, i) ==> r == None)
            && (forall j :: 0 <= j < i && !mask[j] && AllDisabled(mask, j + 1, i) ==> r == Some(options[j]))
  {
    var n := |options|;
    ReverseDistinct(options);
    var it := Reverse(options);
    assert it[n - 1 - i] == options[i];
    IndexOfDistinct(it, n - 1 - i);
    if i > 0 {
      IndexOfDistinct(it, n - i);
    }
    WalkBackward(options, mask, i);
  }

  /** Without a selection, scrolling down selects the first enabled option
      and scrolling up the last one. */
  lemma ScrollWithoutSelection<T>(options: seq<T>, mask: seq<bool>, y: real)
    requires |mask| >= |options| && y != 0.0
    ensures var r := ScrollNext(options, mask, None, y);
            (AllDisabled(mask, 0, |options|) ==> r == None)
            && (y < 0.0 ==> forall j :: 0 <= j < |options| && !mask[j] && AllDisabled(mask, 0, j) ==> r == Some(options[j]))
            && (y > 0.0 ==> forall j :: 0 <= j < |options| && !mask[j] && AllDisabled(mask, j + 1, |options|) ==> r == Some(options[j]))
  {
    FirstEnabledIsLeast(options, mask, 0);
    LastEnabledIsGreatest(options, mask, |options|);
  }

  /** A selection that is not among the options selects nothing: `find_next`
      runs off the end before the walk starts. */
  lemma ScrollFromAbsentSelection<T>(options: seq<T>, mask: seq<bool>, s: T, y: real)
    requires ScrollDefined(options, mask, Some(s), y) && s !in options
    ensures ScrollNext(options, mask, Some(s), y) == None
  {
  }
}

=== FILE: seqs.dfy ===
/**
 Sequence searches the widgets perform with `Iterator::position` and the
 properties of option lists the scroll search relies on.
 */
module Seqs {
  import opened Core

  /** `iter().position(|e| e == x)`: the index of the first element equal to `x`. */
  function IndexOf<T(==)>(s: seq<T>, x: T): (r: Option<nat>)
    ensures r.None? <==> x !in s
    ensures r.Some? ==> r.value < |s| && s[r.value] == x
    ensures r.Some? ==> forall k :: 0 <= k < r.value ==> s[k] != x
  {
    if |s| == 0 then None
    else if s[0] == x then Some(0)
    else match IndexOf(s[1..], x)
      case None => None
      case Some(k) => Some(k + 1)
  }

  /** No value occurs twice. */
  predicate Distinct<T(==)>(s: seq<T>) {
    forall i, j :: 0 <= i < j < |s| ==> s[i] != s[j]
  }

  /** The elements in the opposite order, as `iter().rev()` visits them. */
  function Reverse<T>(s: seq<T>): (r: seq<T>)
    ensures |r| == |s|
    ensures forall k :: 0 <= k < |s| ==> r[k] == s[|s| - 1 - k]
  {
    seq(|s|, k requires 0 <= k < |s| => s[|s| - 1 - k])
  }

  /** In a list without repeats every element is found at its own index. */
  lemma IndexOfDistinct<T>(s: seq<T>, k: nat)
    requires Distinct(s) && k < |s|
    ensures IndexOf(s, s[k]) == Some(k)
  {
  }

  lemma ReverseDistinct<T>(s: seq<T>)
    requires Distinct(s)
    ensures Distinct(Reverse(s))
  {
  }
}
